=== FILE: README.md ===
# Batalha Naval: a verified model of the game engine

Batalha Naval is a two-player Battleship game. A Node.js server keeps one
record per room. The record holds two 10x10 boards, two player slots, two
"ships placed" flags, the turn, a status (waiting, setup, playing, game over)
and the winner. WebSocket handlers change this record when a player joins,
submits a board, fires or disconnects. After every change the server sends
each connected player a copy of the room in which the opponent's unhit ships
are hidden. The browser client places the fleet on a local board, draws the
boards it receives, and sends shots.

This project models that engine in Dafny as pure functions over immutable
datatypes:

- `Board` (board.dfy): cells `Empty | Ship | Hit | Miss` for the source's `0`,
  `1`, `'X'` and `'M'`. A `Grid` is a 10x10 `seq<seq<Cell>>`, indexed
  `b[y][x]` as in the source. It also defines the flattened board
  (`board.flat()`), cell counts, and single-cell update.
- `Game` (game.dfy): the room record and its transitions `Join`,
  `PlaceShips`, `Fire` and `Leave`. It also defines the invariant every
  reachable room satisfies.
- `Redaction` (redaction.dfy): the per-viewer projection built in
  `broadcastToRoom`.
- `Registry` (registry.dfy): the `games` table, room creation, the
  validate-room lookup, connecting, message dispatch, disconnect with room
  removal, and the broadcast fan-out.
- `Placement` (placement.dfy): the client's fleet placement. This covers ship
  cells, the legality check, the board and ship-list update on a click, and
  rotation.
- `ClientView` (clientview.dfy): the client's cell classes in `renderBoard`,
  `myTurn`, and the fire guard.
- `Wrappers` (wrappers.dfy): `Option` and `Result`.

Room and player identifiers, which the source derives from the clock, are
parameters. Whether a socket is open is also a parameter (`Broadcast`'s
`open`).

Where the intended design of the game and the code differ, the model follows
the code:

- The server does not validate the fleet. `place_ships` stores whatever board
  arrives. It also accepts a second submission from the same slot while the
  room is in setup.
- A shot at a cell already marked hit or miss is not rejected. No cell
  changes, but the turn still passes.
- Firing ends the game only when a shot hits the last ship part. A board submitted
  with no ships never loses.
- Opponent ships are hidden in every status, including game over. The
  client's game-over reveal of ships therefore never fires.
- A join that fills the second slot sets the status to setup whatever the
  status was. A finished room whose other player is still connected can be
  rejoined and goes back to setup with the old winner, flags and boards
  (`Game.RejoinAfterGameOver`). This is the one way a room's handlers move
  the status backwards (`Game.StatusMonotone`).
- The winner is not fixed for good. After a rejoin into a finished room, a
  disconnect by the old winner ends the game again, and the rejoined slot is
  recorded as the winner (`Game.RejoinThenLeaveOverwritesWinner`).
- Creating a room under an id already in use replaces that room, so a room in
  play can go back to waiting. No creation error is reported.
- A disconnect during setup or play ends the game, and the other slot wins. A
  disconnect while waiting or after the game only frees the slot. The room is
  deleted once both slots are empty.

## Model

| member | source | states |
|---|---|---|
| `Board.SetCell` | server.js:144-155 | Writing one cell changes only that cell, and the board's multiset of cells loses the old value and gains the new one |
| `Board.CountSetCell` | server.js:146-155 | Writing one cell moves each cell-value count by exactly the old and the new value |
| `Board.HasShipIff` | server.js:149 | `flat().includes(1)` holds iff some position holds a ship part, iff the ship count is positive |
| `Board.BlankIsEmpty` | server.js:41-48 | The board built from `Array(10).fill(0)` rows is all water, with no ship, hit or miss |
| `Game.NewRoom` | server.js:40-54 | A new room is waiting, with turn 0, no winner, both slots empty, both flags false and both boards blank |
| `Game.NewRoomInv` | server.js:40-54 | A new room's boards are all water, and the room satisfies the room invariant |
| `Game.FirstFree` | server.js:95-96 | `players.indexOf(null)` finds nothing iff both slots are taken; otherwise it finds an empty slot, the lowest one |
| `Game.Join` | server.js:95-117 | A join fails as full iff both slots are taken. Otherwise it seats the player in the lowest empty slot, leaves the other slot alone, and sets setup exactly when both slots are then taken. Nothing else changes |
| `Game.PlaceShips` | server.js:127-133 | Outside setup nothing changes. In setup the sender's board becomes the submitted one and the sender's flag is set. The other board and flag are kept. The status becomes playing iff the other flag was already set, and stays setup otherwise |
| `Game.ShotResult` | server.js:146-155 | A shot turns a ship part into a hit and water into a miss, and leaves a hit or miss as it is |
| `Game.Fire` | server.js:137-159 | A shot out of turn or outside play changes nothing. An accepted shot changes only the target cell of the opponent's board and leaves the firer's board alone. The game is over iff the shot hit the last ship part; then the firer is the winner and the turn stays. Otherwise the turn passes to the opponent |
| `Game.FireChangesIffAccepted` | server.js:137-159 | A shot leaves the room unchanged iff it is refused, that is, iff the room is not in play or it is not the shooter's turn. An accepted shot always ends the game or passes the turn |
| `Game.FireCounts` | server.js:144-155 | An accepted shot moves exactly one cell from ship to hit or from water to miss, and every other count stays; a shot at a hit or miss leaves the board identical |
| `Game.FireEndsGameIff` | server.js:146-159 | If the opponent had a ship part before the shot, the game ends iff none is left, with the firer as winner; otherwise the turn goes to the opponent |
| `Game.Leave` | server.js:170-175 | Leaving empties the leaver's slot and keeps the other. In setup or play it ends the game with the other slot as winner. While waiting or after the game, status and winner stay |
| `Game.LeaveIdempotent` | server.js:170-175 | Leaving twice from one slot has the effect of leaving once |
| `Game.LeaveMidGameDecides` | server.js:170-173 | A disconnect in setup or play ends the game with the other slot as winner, and a repeated disconnect changes nothing more |
| `Game.StepInv` | server.js:95-175 | Every handler keeps the room invariant. A waiting room is a fresh room with at most one player. Setup and play have both slots taken. Play has both flags set. Game over has a winner |
| `Game.RunInv` | server.js:82-186 | Every room reached by any sequence of handler calls satisfies the room invariant |
| `Game.StatusMonotone` | server.js:115-117 | No handler of a room moves its status backwards, except that a join into a finished room can send it back to setup |
| `Game.WinnerStable` | server.js:127-173 | While the room is in game over, no single handler changes the winner |
| `Game.RejoinAfterGameOver` | server.js:95-117 | A finished room where one player leaves and the other stays can be rejoined in the freed slot; it goes back to setup and keeps the old winner |
| `Game.RejoinThenLeaveOverwritesWinner` | server.js:95-175 | In a finished room, a rejoin into the loser's slot followed by the winner's disconnect ends the game again with the rejoined slot as winner, replacing the recorded winner |
| `Redaction.Hide` | server.js:205 | A ship part is shown as water, and every other cell is shown as it is |
| `Redaction.Redact` | server.js:204-206 | The redacted board holds no ship part; every ship part reads as water and every other cell is kept |
| `Redaction.Project` | server.js:197-206 | The viewer's own board is sent unchanged. The opponent's board keeps every non-ship cell, shows each ship part as water and holds no ship part. All other fields are copied |
| `Redaction.RedactIdempotent` | server.js:204-206 | Redacting a redacted board changes nothing |
| `Redaction.ProjectHidesShipLayout` | server.js:197-206 | Two rooms that differ only in where the opponent's unhit ships are give the viewer the same state |
| `Redaction.ProjectCounts` | server.js:204-206 | The sent opponent board has no ship part and the same hits and misses; its water count is the old water plus the old ship parts |
| `Registry.CreateRoom` | server.js:56-60 | Creation stores a fresh room under the id, replacing any room there, and keeps all other rooms |
| `Registry.ValidateRoom` | server.js:65-80 | The answer is not found iff the id is unknown, full iff both slots are taken, and available otherwise |
| `Registry.Connect` | server.js:82-117 | An empty or unknown id is refused as invalid. A full room is refused as full. Otherwise the player is seated as `Game.Join` does, told the slot index, and no other room changes |
| `Registry.ValidateAgreesWithConnect` | server.js:65-100 | Validate-room's answer predicts the connection outcome: available iff accepted, full iff refused as full, not found iff refused as invalid |
| `Registry.TwoJoinsStartSetup` | server.js:95-117 | In a new room, two connections get slots 0 and 1 in join order; the room is then in setup and validates as full |
| `Registry.Receive` | server.js:120-161 | A message for a deleted room is dropped. Otherwise the message is applied as `place_ships` or `fire` to that room only, and the set of rooms is kept |
| `Registry.Disconnect` | server.js:164-182 | Closing applies `Game.Leave` and keeps the room iff the other slot is still taken. Other rooms are untouched, and an unknown room is a no-op |
| `Registry.DisconnectIdempotent` | server.js:164-182 | Closing the same slot twice has the effect of closing it once |
| `Registry.Broadcast` | server.js:189-210 | A state goes exactly to each open slot of an existing room. Each state shows the recipient's own board as it is. The opponent's board holds no ship part, shows each ship part as water, and keeps every hit, miss and water cell. All other fields equal the room's |
| `Registry.HandlersKeepInv` | server.js:56-186 | Creation, connection, messages and disconnects keep every stored room within the room invariant |
| `Placement.Toggle` | public/client.js:275-276 | Rotation always switches the orientation |
| `Placement.ToggleTwice` | public/client.js:275-276 | Rotating twice restores the orientation |
| `Placement.HandleKey` | public/client.js:273-278 | `r` or `R` with a ship selected rotates both the layout and the selection. Any other key, or no selection, changes nothing |
| `Placement.FleetSize` | public/client.js:17-23 | The fleet's lengths add up to 17 |
| `Placement.SelectShip` | public/client.js:255-260 | Selecting list entry i records that ship, its index and the current orientation, and changes nothing else |
| `Placement.Cells` | public/client.js:289-296 | Pushing n cells one by one yields exactly the n offsets along the orientation |
| `Placement.ShipCells` | public/client.js:287-298 | With no selection there are no cells. Otherwise there are exactly `size` cells, from (x,y) to (x+size-1,y) when horizontal or (x,y+size-1) when vertical |
| `Placement.ShipCellsDistinct` | public/client.js:287-298 | A ship's cells never repeat |
| `Placement.MarkedCellsBlockPlacement` | public/client.js:332-342 | After a run is marked, any run that shares a cell with it is illegal, so placed ships cannot overlap |
| `Placement.CanPlaceNeedsWater` | public/client.js:332-342 | A legal run of distinct cells is no longer than the board's water count |
| `Placement.CanPlaceIff` | public/client.js:332-342 | For a selected ship, a placement is legal iff the whole run lies in [0,10)x[0,10) and each of its cells is water |
| `Placement.MarkShips` | public/client.js:357-362 | Every listed cell becomes a ship part and every other cell is kept. For a legal run of distinct cells, the ship count grows by its length, water shrinks by it, and hits and misses stay |
| `Placement.Splice` | public/client.js:364 | `splice(i, 1)` removes exactly entry i, in order, taking its length off the total; an index past the end removes nothing |
| `Placement.PlaceOnClick` | public/client.js:344-373 | With no selection, or an illegal placement, nothing changes. Otherwise the ship's cells are marked, the selected entry leaves the list, the selection clears and the orientation resets to horizontal. Placement is finished iff the list is now empty |
| `Placement.PlaceOnClickEffect` | public/client.js:356-366 | A successful click turns exactly the ship's cells into ship parts. It removes exactly the selected ship from the list, as a multiset, and adds its length to the ship count |
| `Placement.Start` | public/client.js:194-199 | Placement starts with every cell water, the whole fleet to place, no selection, and horizontal orientation |
| `Placement.StartWf` | public/client.js:194-199 | Placement starts well formed: empty board, whole fleet to place, nothing selected |
| `Placement.PlaceKeepsWf` | public/client.js:344-373 | A click keeps the layout well formed. The board has no hit or miss. Its ship count plus the sizes still to place is the fleet total, so placed ships never overlap. The list is a sub-multiset of the fleet. A selection names its own entry in the current orientation |
| `Placement.SelectKeepsWf` | public/client.js:255-260 | Selecting a list entry keeps the layout well formed |
| `Placement.HandleKeyKeepsWf` | public/client.js:273-278 | Rotating keeps the layout well formed, the selection following the layout's orientation |
| `Placement.FleetComplete` | public/client.js:356-371 | When the list is empty, the board holds exactly 17 ship parts |
| `ClientView.CellClass` | public/client.js:156-168 | A hit is `hit` on the opponent board and `ship-hit` on one's own. A miss is `miss`. A ship part is `ship` only on one's own board or at game over. Water, and a hidden opponent ship outside game over, get no class |
| `ClientView.OwnClassDeterminesCell` | public/client.js:156-168 | On one's own board, two cells get the same class iff they hold the same value |
| `ClientView.Render` | public/client.js:139-170 | Drawing a board gives a 10x10 grid whose every cell has the class of the board's cell |
| `ClientView.HandleUpdate` | public/client.js:173-188 | `myTurn` holds iff the state's turn is the player's index. The own and opponent boards are drawn with the game-over flag of the state |
| `ClientView.MyTurnAgreesWithServer` | public/client.js:174 | The server accepts a shot from a player iff the room is in play and the state sent to that player makes `myTurn` true |
| `ClientView.FireRequest` | public/client.js:427-439 | The click handler's guard sends a shot iff it is the player's turn and the clicked cell is drawn neither as hit nor as miss |
| `ClientView.OpponentShipNeverDrawn` | public/client.js:164-167 | Drawn from a state the server sent, no opponent cell is ever drawn as a ship, not even at game over |
| `ClientView.ClientShotIsFresh` | public/client.js:431-438 | Drawn from the server's state, the click handler's guard sends a shot iff it is the player's turn and the true cell is water or a ship part. In play such a shot is accepted and changes that cell |

## Left out

- HTTP and WebSocket transport are left out: routes, status codes, JSON bodies, message strings, framing, `readyState`, `send` and `close`. They are I/O. Whether a socket is open is a parameter of `Registry.Broadcast`.
- The `connections` socket table is not modelled on its own. For a room made by create-room, join fills it and close empties it alongside `players`, so room removal is modelled on `players`.
- Registry.Connect: seats the player in every stored room with a free slot. For a room restored by `loadGames`, the server has no `connections` entry. It marks the slot taken and then throws. The socket gets no player index and no message or close handler, so the slot stays taken and the room is never removed. The model treats every room as one made by create-room.
- `loadGames` and `saveGames` are left out. They are file persistence and JSON (de)serialisation.
- Room-id and player-id generation from `Date.now()` is left out because it is non-deterministic. Ids are parameters.
- Logging is left out.
- JavaScript object-key quirks of the `games` lookup are left out. For example, an id such as `constructor` finds an inherited property.
- Game.PlaceShips: the submitted board is typed as a 10x10 grid of the four cell values. The server stores any JSON value without a check, and decoding it belongs to the transport boundary.
- Game.Fire: requires the shot coordinates to lie on the board. The handler does not check them. An out-of-range row throws, and an out-of-range column reads `undefined` and passes the turn.
- Registry.Receive: inherits `Game.Fire`'s in-bounds requirement for `fire` messages.
- ClientView.FireRequest: does not model the `pointerEvents` gate on the opponent board. `updateStatus` turns it off in setup and game over and on only in play. So the real client gets no click outside play, while the model's guard still passes for a winner whose turn stayed after the game ended.
- All DOM work in the client is left out: element lookup, labels, event listeners, preview highlighting, ship-list rendering, alerts, `fetch`, clipboard and status texts. It is UI. The list re-render after a placement has no effect because the selection is already cleared.
- The client's fallback to an empty board for a missing `state.boards[playerIndex]` is left out. So is `playerIndex` being -1 before assignment. The server sends `assign_player` before the first update on a socket, so `HandleUpdate` takes a slot.
- `updateStatus` re-running `setupMyBoard` on each setup update is left out. Each run starts a new placement state from an empty board and the full fleet, as `Placement.Start` does. But it only adds new key and click listeners and never removes the old ones. So after a re-run, two or more placement states handle the same events. The old ones keep changing their own board and ship list, rewrite the shared ship list on screen, and can point the submit button at their own board. The model covers one placement state.
- Fleet-shape validation on the server is left out because it does not exist in the code.

=== FILE: board.dfy ===
/**
 * The 10x10 game board shared by the server and the client.  A cell holds
 * `0` (empty water), `1` (an unhit ship part), `'X'` (a hit) or `'M'` (a miss);
 * rows are indexed first, so the cell at column `x` of row `y` is `b[y][x]`.
 */
module Board {

  /** Side length of every board. */
  const Size: int := 10

  datatype Cell = Empty | Ship | Hit | Miss

  datatype Pos = Pos(x: int, y: int)

  predicate IsGrid(b: seq<seq<Cell>>) {
    |b| == Size && forall y :: 0 <= y < |b| ==> |b[y]| == Size
  }

  /** `n` copies of `v`, as `Array(n).fill(v)` builds them. */
  function Repeat<T>(v: T, n: nat): (r: seq<T>)
    ensures |r| == n
    ensures forall i :: 0 <= i < n ==> r[i] == v
  {
    if n == 0 then [] else [v] + Repeat(v, n - 1)
  }

  /** The all-empty board the server and the client start from. */
  const Blank: seq<seq<Cell>> := Repeat(Repeat(Empty, Size), Size)

  type Grid = b: seq<seq<Cell>> | IsGrid(b) witness Blank

  predicate InBounds(x: int, y: int) {
    0 <= x < Size && 0 <= y < Size
  }

  /** The cells of a board row after row, as `Array.prototype.flat` yields them. */
  function Flat(b: seq<seq<Cell>>): seq<Cell> {
    if |b| == 0 then [] else b[0] + Flat(b[1..])
  }

  /** How many cells of `b` hold `c`. */
  function Count(b: seq<seq<Cell>>, c: Cell): nat {
    multiset(Flat(b))[c]
  }

  /** Whether an unhit ship part is left (`board.flat().includes(1)`). */
  predicate HasShip(b: seq<seq<Cell>>) {
    Ship in Flat(b)
  }

  /** `b` and `r` agree on every cell except possibly the one at (x, y). */
  ghost predicate SameExcept(b: Grid, r: Grid, x: int, y: int) {
    forall j, i :: 0 <= j < Size && 0 <= i < Size && (i != x || j != y) ==> r[j][i] == b[j][i]
  }

  /** A cell occurs in the flattened board exactly when some position holds it. */
  lemma {:induction false} FlatMember(b: seq<seq<Cell>>, c: Cell)
    ensures c in Flat(b) <==> exists y, x :: 0 <= y < |b| && 0 <= x < |b[y]| && b[y][x] == c
  {
    if |b| > 0 {
      FlatMember(b[1..], c);
      if c in Flat(b[1..]) {
        var y, x :| 0 <= y < |b[1..]| && 0 <= x < |b[1..][y]| && b[1..][y][x] == c;
        assert b[y + 1][x] == c;
      }
      if c in b[0] {
        var x :| 0 <= x < |b[0]| && b[0][x] == c;
        assert b[0][x] == c;
      }
      if exists y, x :: 0 <= y < |b| && 0 <= x < |b[y]| && b[y][x] == c {
        var y, x :| 0 <= y < |b| && 0 <= x < |b[y]| && b[y][x] == c;
        if y > 0 {
          assert b[1..][y - 1][x] == c;
        }
      }
    }
  }

  /** No unhit ship part is left exactly when no position holds one. */
  lemma HasShipIff(b: Grid)
    ensures HasShip(b) <==> exists y, x :: InBounds(x, y) && b[y][x] == Ship
    ensures HasShip(b) <==> Count(b, Ship) > 0
  {
    FlatMember(b, Ship);
  }

  /** Replacing one row changes the flattened contents by that row only. */
  lemma {:induction false} FlatUpdateRow(b: seq<seq<Cell>>, y: int, row: seq<Cell>)
    requires 0 <= y < |b|
    ensures multiset(Flat(b[y := row])) + multiset(b[y]) == multiset(Flat(b)) + multiset(row)
  {
    if y == 0 {
      assert b[y := row][1..] == b[1..];
    } else {
      var b' := b[y := row];
      assert b'[0] == b[0];
      assert b'[1..] == b[1..][y - 1 := row];
      FlatUpdateRow(b[1..], y - 1, row);
      assert b[1..][y - 1] == b[y];
      assert Flat(b') == b[0] + Flat(b[1..][y - 1 := row]);
      assert Flat(b) == b[0] + Flat(b[1..]);
      assert multiset(Flat(b')) == multiset(b[0]) + multiset(Flat(b[1..][y - 1 := row]));
      assert multiset(Flat(b)) == multiset(b[0]) + multiset(Flat(b[1..]));
      var lhs, rhs := multiset(Flat(b')) + multiset(b[y]), multiset(Flat(b)) + multiset(row);
      forall e ensures lhs[e] == rhs[e] {
        assert (multiset(Flat(b[1..][y - 1 := row])) + multiset(b[y]))[e]
          == (multiset(Flat(b[1..])) + multiset(row))[e];
      }
      assert lhs == rhs;
    }
  }

  /** Replacing one cell of a row changes its contents by that cell only. */
  lemma RowUpdate(row: seq<Cell>, x: int, c: Cell)
    requires 0 <= x < |row|
    ensures multiset(row[x := c]) + multiset{row[x]} == multiset(row) + multiset{c}
  {
    assert row == row[..x] + [row[x]] + row[x + 1..];
    assert row[x := c] == row[..x] + [c] + row[x + 1..];
  }

  /** The board with the cell at (x, y) set to `c`. */
  function SetCell(b: Grid, x: int, y: int, c: Cell): (r: Grid)
    requires InBounds(x, y)
    ensures r[y][x] == c
    ensures SameExcept(b, r, x, y)
    ensures multiset(Flat(r)) + multiset{b[y][x]} == multiset(Flat(b)) + multiset{c}
  {
    var row := b[y][x := c];
    var r := b[y := row];
    assert IsGrid(r) by {
      forall j | 0 <= j < |r| ensures |r[j]| == Size {
        if j != y { assert r[j] == b[j]; }
      }
    }
    RowUpdate(b[y], x, c);
    FlatUpdateRow(b, y, row);
    assert multiset(Flat(r)) + multiset{b[y][x]} == multiset(Flat(b)) + multiset{c} by {
      var fr, fb, old_, new_ := multiset(Flat(r)), multiset(Flat(b)), multiset(b[y]), multiset(row);
      assert fr + old_ == fb + new_;
      assert new_ + multiset{b[y][x]} == old_ + multiset{c};
      forall e ensures (fr + multiset{b[y][x]})[e] == (fb + multiset{c})[e] {
        assert (fr + old_)[e] == (fb + new_)[e];
        assert (new_ + multiset{b[y][x]})[e] == (old_ + multiset{c})[e];
        assert new_[e] + multiset{b[y][x]}[e] == old_[e] + multiset{c}[e];
      }
    }
    r
  }

  /** How setting one cell moves the count of each cell value. */
  lemma CountSetCell(b: Grid, x: int, y: int, c: Cell, d: Cell)
    requires InBounds(x, y)
    ensures Count(SetCell(b, x, y, c), d) + (if b[y][x] == d then 1 else 0)
         == Count(b, d) + (if c == d then 1 else 0)
  {
    var r := SetCell(b, x, y, c);
    assert (multiset(Flat(r)) + multiset{b[y][x]})[d] == (multiset(Flat(b)) + multiset{c})[d];
  }

  /** The blank board holds nothing but empty water. */
  lemma BlankIsEmpty()
    ensures forall y, x :: InBounds(x, y) ==> Blank[y][x] == Empty
    ensures Count(Blank, Ship) == 0 && Count(Blank, Hit) == 0 && Count(Blank, Miss) == 0
  {
    FlatMember(Blank, Ship);
    FlatMember(Blank, Hit);
    FlatMember(Blank, Miss);
  }
}

=== FILE: clientview.dfy ===
/**
 * The browser's side of an `update` message: `handleGameUpdate` works out
 * whether it is this player's turn and draws both boards, `renderBoard`
 * gives each cell its display class, and the fire handler sends a shot only
 * on the player's turn and only at a cell not already shown as hit or miss.
 */
module ClientView {
  import opened Wrappers
  import opened Board
  import opened Game
  import opened Redaction

  /** The display classes `renderBoard` adds to a cell. */
  datatype Style = ShipStyle | HitStyle | MissStyle | ShipHitStyle

  /**
   * The class of one cell: a hit shows as `hit` on the opponent's board and
   * `ship-hit` on one's own, a miss as `miss`, a ship part as `ship` on one's
   * own board or once the game is over, and water with no class.
   */
  function CellClass(v: Cell, isOpponent: bool, isGameOver: bool): (r: Option<Style>)
    ensures r == Some(ShipStyle) <==> v == Ship && (!isOpponent || isGameOver)
    ensures r == Some(HitStyle) <==> v == Hit && isOpponent
    ensures r == Some(ShipHitStyle) <==> v == Hit && !isOpponent
    ensures r == Some(MissStyle) <==> v == Miss
    ensures r == None <==> v == Empty || (v == Ship && isOpponent && !isGameOver)
  {
    match v
    case Hit => if isOpponent then Some(HitStyle) else Some(ShipHitStyle)
    case Miss => Some(MissStyle)
    case Ship => if !isOpponent || isGameOver then Some(ShipStyle) else None
    case Empty => None
  }

  /** On one's own board the class tells the cell value exactly. */
  lemma OwnClassDeterminesCell(a: Cell, b: Cell, isGameOver: bool)
    ensures CellClass(a, false, isGameOver) == CellClass(b, false, isGameOver) <==> a == b
  {
  }

  /** A 10x10 grid of drawn cells. */
  predicate Drawn(v: seq<seq<Option<Style>>>) {
    |v| == Size && forall y :: 0 <= y < Size ==> |v[y]| == Size
  }

  /** `renderBoard` over a whole board. */
  function Render(b: Grid, isOpponent: bool, isGameOver: bool): (r: seq<seq<Option<Style>>>)
    ensures Drawn(r)
    ensures forall y, x :: InBounds(x, y) ==> r[y][x] == CellClass(b[y][x], isOpponent, isGameOver)
  {
    seq(Size, y requires 0 <= y < Size =>
      seq(Size, x requires 0 <= x < Size => CellClass(b[y][x], isOpponent, isGameOver)))
  }

  /** What the player sees after an update, and whether it is their turn. */
  datatype Screen = Screen(mine: seq<seq<Option<Style>>>, theirs: seq<seq<Option<Style>>>, myTurn: bool)

  /** `state.turn === playerIndex`. */
  predicate MyTurn(state: Room, playerIndex: int) {
    state.turn == playerIndex
  }

  /** `handleGameUpdate` for the player in slot `me`. */
  function HandleUpdate(state: Room, me: Slot): (s: Screen)
    ensures s.myTurn <==> state.turn == me
    ensures Drawn(s.mine) && Drawn(s.theirs)
    ensures forall y, x :: InBounds(x, y) ==>
      && s.mine[y][x] == CellClass(state.boards.Get(me)[y][x], false, state.status == GameOver)
      && s.theirs[y][x] == CellClass(state.boards.Get(1 - me)[y][x], true, state.status == GameOver)
  {
    var over := state.status == GameOver;
    Screen(Render(state.boards.Get(me), false, over), Render(state.boards.Get(1 - me), true, over), MyTurn(state, me))
  }

  /** The fire guard: only on one's turn, and never at a cell drawn as hit or miss. */
  predicate MayFire(myTurn: bool, cls: Option<Style>) {
    myTurn && cls != Some(HitStyle) && cls != Some(MissStyle)
  }

  /** A click on opponent cell (x, y): the shot the client sends, if any. */
  function FireRequest(s: Screen, x: int, y: int): (shot: Option<Pos>)
    requires InBounds(x, y)
    requires Drawn(s.theirs)
    ensures shot.Some? <==> s.myTurn && s.theirs[y][x] != Some(HitStyle) && s.theirs[y][x] != Some(MissStyle)
    ensures shot.Some? ==> shot.value == Pos(x, y)
  {
    if MayFire(s.myTurn, s.theirs[y][x]) then Some(Pos(x, y)) else None
  }

  /**
   * Because the server redacts the opponent's board in every status, the
   * client never draws an opponent ship part, not even in the game-over
   * reveal.
   */
  lemma OpponentShipNeverDrawn(r: Room, me: Slot, x: int, y: int)
    requires InBounds(x, y)
    ensures HandleUpdate(Project(r, me), me).theirs[y][x] != Some(ShipStyle)
  {
  }

  /**
   * Drawn from the state the server sends, the client fires at a cell
   * exactly when it is its turn and the cell is water or an unhit ship part
   * on the server; in play, such a shot changes exactly that cell.
   */
  lemma ClientShotIsFresh(r: Room, me: Slot, x: int, y: int)
    requires InBounds(x, y)
    ensures var cell := r.boards.Get(1 - me)[y][x];
      FireRequest(HandleUpdate(Project(r, me), me), x, y).Some? <==>
        r.turn == me && (cell == Empty || cell == Ship)
    ensures FireRequest(HandleUpdate(Project(r, me), me), x, y).Some? && r.status == Playing ==>
      && FireAccepted(r, me)
      && Fire(r, me, x, y).boards.Get(1 - me)[y][x] != r.boards.Get(1 - me)[y][x]
  {
  }

  /**
   * The client's turn flag agrees with the server: the server accepts a shot
   * from `me` exactly when the room is in play and the state `me` is sent
   * says it is its turn.
   */
  lemma MyTurnAgreesWithServer(r: Room, me: Slot)
    ensures FireAccepted(r, me) <==> r.status == Playing && MyTurn(Project(r, me), me)
  {
  }
}

=== FILE: game.dfy ===
/**
 * One room of the game server: the record `createNewGameState` builds and the
 * transitions the WebSocket handlers apply to it when a player joins, submits
 * a board, fires, or disconnects.  Every transition is a pure function that
 * returns the new room, or the same room when the server ignores the message.
 */
module Game {
  import opened Wrappers
  import opened Board

  /** A player's position in the room, the index into `players` and `boards`. */
  type Slot = i: int | 0 <= i < 2

  type PlayerId = string

  /** The two-element arrays of the room record, indexed by slot. */
  datatype Pair<T> = Pair(first: T, second: T) {

    function Get(i: Slot): T {
      if i == 0 then first else second
    }

    function Set(i: Slot, v: T): (r: Pair<T>)
      ensures r.Get(i) == v
      ensures r.Get(1 - i) == Get(1 - i)
    {
      if i == 0 then Pair(v, second) else Pair(first, v)
    }
  }

  datatype Status = Waiting | Setup | Playing | GameOver

  datatype Room = Room(
    boards: Pair<Grid>,
    players: Pair<Option<PlayerId>>,
    shipsPlaced: Pair<bool>,
    turn: Slot,
    status: Status,
    winner: Option<Slot>)

  datatype JoinError = InvalidRoom | RoomFull

  predicate BothOccupied(players: Pair<Option<PlayerId>>) {
    players.first.Some? && players.second.Some?
  }

  predicate BothPlaced(flags: Pair<bool>) {
    flags.first && flags.second
  }

  /** Every cell of `b` is empty water. */
  ghost predicate AllEmpty(b: Grid) {
    forall y, x :: InBounds(x, y) ==> b[y][x] == Empty
  }

  /** A fresh room as `createNewGameState` builds it. */
  function NewRoom(): (r: Room)
    ensures r.status == Waiting && r.turn == 0 && r.winner == None
    ensures forall s :: 0 <= s < 2 ==> r.players.Get(s) == None && !r.shipsPlaced.Get(s) && r.boards.Get(s) == Blank
  {
    Room(Pair(Blank, Blank), Pair(None, None), Pair(false, false), 0, Waiting, None)
  }

  /** The first empty slot, as `players.indexOf(null)` finds it. */
  function FirstFree(players: Pair<Option<PlayerId>>): (r: Option<Slot>)
    ensures r == None <==> BothOccupied(players)
    ensures r.Some? ==> players.Get(r.value) == None
    ensures r == Some(1) ==> players.Get(0).Some?
  {
    if players.first == None then Some(0)
    else if players.second == None then Some(1)
    else None
  }

  /** `r'` is `r` with `id` seated in the lowest empty slot `s`. */
  predicate JoinedAs(r: Room, r': Room, s: Slot, id: PlayerId) {
    && r.players.Get(s) == None
    && (s == 1 ==> r.players.Get(0).Some?)
    && r'.players.Get(s) == Some(id)
    && r'.players.Get(1 - s) == r.players.Get(1 - s)
    && r'.status == (if BothOccupied(r'.players) then Setup else r.status)
    && r'.boards == r.boards && r'.shipsPlaced == r.shipsPlaced
    && r'.turn == r.turn && r'.winner == r.winner
  }

  /**
   * A new connection takes the lowest empty slot; filling the last empty
   * slot moves the room to setup whatever its status was.
   */
  function Join(r: Room, id: PlayerId): (res: Result<(Room, Slot), JoinError>)
    ensures res.Failure? <==> BothOccupied(r.players)
    ensures res.Failure? ==> res.error == RoomFull
    ensures res.Success? ==> JoinedAs(r, res.value.0, res.value.1, id)
  {
    match FirstFree(r.players)
    case None => Failure(RoomFull)
    case Some(s) =>
      var players := r.players.Set(s, Some(id));
      var status := if BothOccupied(players) then Setup else r.status;
      Success((r.(players := players, status := status), s))
  }

  /**
   * A `place_ships` message: accepted only in setup, where it stores the
   * submitted board as the sender's and marks the sender as placed, with no
   * check of the fleet and no refusal of a repeated submission.
   */
  function PlaceShips(r: Room, p: Slot, board: Grid): (r': Room)
    ensures r.status != Setup ==> r' == r
    ensures r.status == Setup ==>
      && r'.boards.Get(p) == board
      && r'.boards.Get(1 - p) == r.boards.Get(1 - p)
      && r'.shipsPlaced.Get(p)
      && r'.shipsPlaced.Get(1 - p) == r.shipsPlaced.Get(1 - p)
      && (r'.status == Playing <==> r.shipsPlaced.Get(1 - p))
      && (r'.status != Playing ==> r'.status == Setup)
      && r'.players == r.players && r'.turn == r.turn && r'.winner == r.winner
  {
    if r.status != Setup then r
    else
      var flags := r.shipsPlaced.Set(p, true);
      r.(boards := r.boards.Set(p, board),
         shipsPlaced := flags,
         status := if BothPlaced(flags) then Playing else Setup)
  }

  /** A `fire` message is acted on only in play and only from the player whose turn it is. */
  predicate FireAccepted(r: Room, p: Slot) {
    r.status == Playing && r.turn == p
  }

  /** The change a shot makes to the cell it lands on. */
  function ShotResult(c: Cell): (r: Cell)
    ensures c == Ship ==> r == Hit
    ensures c == Empty ==> r == Miss
    ensures (c == Hit || c == Miss) ==> r == c
  {
    match c
    case Ship => Hit
    case Empty => Miss
    case _ => c
  }

  /**
   * `r'` is `r` after player `p`'s accepted shot at (x, y): only that cell of
   * the opponent's board changes, the game ends exactly when the shot hit the
   * last ship part, and otherwise the turn goes to the opponent.
   */
  ghost predicate ShotApplied(r: Room, r': Room, p: Slot, x: int, y: int)
    requires InBounds(x, y)
  {
    var b, b' := r.boards.Get(1 - p), r'.boards.Get(1 - p);
    && r'.boards.Get(p) == r.boards.Get(p)
    && b'[y][x] == ShotResult(b[y][x])
    && SameExcept(b, b', x, y)
    && (r'.status == GameOver <==> b[y][x] == Ship && !HasShip(b'))
    && (r'.status != GameOver ==> r'.status == Playing && r'.turn == 1 - p && r'.winner == r.winner)
    && (r'.status == GameOver ==> r'.turn == p && r'.winner == Some(p))
    && r'.players == r.players && r'.shipsPlaced == r.shipsPlaced
  }

  /**
   * A `fire` message at (x, y).  An accepted shot marks the opponent's cell
   * (ship to hit, water to miss, a hit or miss stays), ends the game when it
   * hits the last ship part, and otherwise hands the turn to the opponent,
   * even when the cell had already been shot.
   */
  function Fire(r: Room, p: Slot, x: int, y: int): (r': Room)
    requires InBounds(x, y)
    ensures !FireAccepted(r, p) ==> r' == r
    ensures FireAccepted(r, p) ==> ShotApplied(r, r', p, x, y)
  {
    if !FireAccepted(r, p) then r
    else
      var opp := 1 - p;
      var target := r.boards.Get(opp);
      var cell := target[y][x];
      var target' := if cell == Ship || cell == Empty then SetCell(target, x, y, ShotResult(cell)) else target;
      var over := cell == Ship && !HasShip(target');
      var r1 := r.(boards := r.boards.Set(opp, target'));
      if over then r1.(status := GameOver, winner := Some(p))
      else r1.(turn := opp)
  }

  /**
   * A connection closing.  Leaving during setup or play ends the game in the
   * other slot's favour; leaving while waiting or after the game only frees
   * the slot.
   */
  function Leave(r: Room, p: Slot): (r': Room)
    ensures r'.players.Get(p) == None && r'.players.Get(1 - p) == r.players.Get(1 - p)
    ensures r.status in {Setup, Playing} ==> r'.status == GameOver && r'.winner == Some(1 - p)
    ensures r.status in {Waiting, GameOver} ==> r'.status == r.status && r'.winner == r.winner
    ensures r'.boards == r.boards && r'.shipsPlaced == r.shipsPlaced && r'.turn == r.turn
  {
    var r1 := if r.status != Waiting && r.status != GameOver
      then r.(status := GameOver, winner := Some(1 - p))
      else r;
    r1.(players := r1.players.Set(p, None))
  }

  /** Leaving twice from the same slot has the effect of leaving once. */
  lemma LeaveIdempotent(r: Room, p: Slot)
    ensures Leave(Leave(r, p), p) == Leave(r, p)
  {
  }

  /** Everything that can happen to a room, one handler invocation each. */
  datatype Event =
    | JoinEvent(id: PlayerId)
    | PlaceEvent(p: Slot, board: Grid)
    | FireEvent(p: Slot, x: int, y: int)
    | LeaveEvent(p: Slot)

  predicate ValidEvent(e: Event) {
    e.FireEvent? ==> InBounds(e.x, e.y)
  }

  /** The room after one event; a refused join leaves it as it was. */
  function Step(r: Room, e: Event): Room
    requires ValidEvent(e)
  {
    match e
    case JoinEvent(id) => (match Join(r, id) case Success((r', _)) => r' case Failure(_) => r)
    case PlaceEvent(p, board) => PlaceShips(r, p, board)
    case FireEvent(p, x, y) => Fire(r, p, x, y)
    case LeaveEvent(p) => Leave(r, p)
  }

  /** The room after a sequence of events, applied in order. */
  function Run(r: Room, es: seq<Event>): Room
    requires forall i :: 0 <= i < |es| ==> ValidEvent(es[i])
    decreases |es|
  {
    if |es| == 0 then r else Run(Step(r, es[0]), es[1..])
  }

  /**
   * What holds of every room the server can reach: a waiting room is a fresh
   * one with at most one player in it, setup and play need both seats taken, play
   * needs both boards submitted, and a finished game has a winner.
   */
  ghost predicate Inv(r: Room) {
    && (r.status == Waiting ==>
          && !BothOccupied(r.players)
          && AllEmpty(r.boards.first) && AllEmpty(r.boards.second)
          && !r.shipsPlaced.first && !r.shipsPlaced.second
          && r.turn == 0 && r.winner == None)
    && (r.status in {Setup, Playing} ==> BothOccupied(r.players))
    && (r.status == Playing ==> BothPlaced(r.shipsPlaced))
    && (r.status == GameOver ==> r.winner.Some?)
  }

  /** A fresh room is waiting with two empty boards, and satisfies the invariant. */
  lemma NewRoomInv()
    ensures AllEmpty(NewRoom().boards.first) && AllEmpty(NewRoom().boards.second)
    ensures Inv(NewRoom())
  {
    BlankIsEmpty();
  }

  /** Every handler keeps the invariant. */
  lemma StepInv(r: Room, e: Event)
    requires Inv(r) && ValidEvent(e)
    ensures Inv(Step(r, e))
  {
  }

  /** Every room reachable from a fresh one satisfies the invariant. */
  lemma {:induction false} RunInv(r: Room, es: seq<Event>)
    requires Inv(r)
    requires forall i :: 0 <= i < |es| ==> ValidEvent(es[i])
    ensures Inv(Run(r, es))
    decreases |es|
  {
    if |es| > 0 {
      StepInv(r, es[0]);
      RunInv(Step(r, es[0]), es[1..]);
    }
  }

  /** Position of a status along waiting, setup, playing, game over. */
  function Rank(s: Status): (n: nat)
    ensures n < 4
  {
    match s
    case Waiting => 0
    case Setup => 1
    case Playing => 2
    case GameOver => 3
  }

  /**
   * The status never moves backwards, with one exception: a player joining a
   * finished room whose other seat is still taken sends it back to setup.
   */
  lemma StatusMonotone(r: Room, e: Event)
    requires Inv(r) && ValidEvent(e)
    ensures var r' := Step(r, e);
      Rank(r'.status) >= Rank(r.status) || (r.status == GameOver && e.JoinEvent? && r'.status == Setup)
  {
  }

  /** While the room is in game over, a single event does not change the winner. */
  lemma WinnerStable(r: Room, e: Event)
    requires ValidEvent(e) && r.status == GameOver
    ensures Step(r, e).winner == r.winner
  {
  }

  /**
   * A shot leaves the room as it was exactly when it is refused: an accepted
   * shot always ends the game or hands over the turn, even at a cell already
   * shot.
   */
  lemma FireChangesIffAccepted(r: Room, p: Slot, x: int, y: int)
    requires InBounds(x, y)
    ensures Fire(r, p, x, y) == r <==> !FireAccepted(r, p)
  {
  }

  /**
   * An accepted shot replaces exactly one ship part by a hit, or one patch of
   * water by a miss, or changes nothing; no other cell count moves.
   */
  lemma FireCounts(r: Room, p: Slot, x: int, y: int)
    requires InBounds(x, y) && FireAccepted(r, p)
    ensures var b, b' := r.boards.Get(1 - p), Fire(r, p, x, y).boards.Get(1 - p);
      && (b[y][x] == Ship ==> Count(b', Ship) + 1 == Count(b, Ship) && Count(b', Hit) == Count(b, Hit) + 1
                              && Count(b', Miss) == Count(b, Miss) && Count(b', Empty) == Count(b, Empty))
      && (b[y][x] == Empty ==> Count(b', Empty) + 1 == Count(b, Empty) && Count(b', Miss) == Count(b, Miss) + 1
                               && Count(b', Ship) == Count(b, Ship) && Count(b', Hit) == Count(b, Hit))
      && ((b[y][x] == Hit || b[y][x] == Miss) ==> b' == b)
  {
    var b := r.boards.Get(1 - p);
    if b[y][x] == Ship || b[y][x] == Empty {
      var c := ShotResult(b[y][x]);
      CountSetCell(b, x, y, c, Ship);
      CountSetCell(b, x, y, c, Hit);
      CountSetCell(b, x, y, c, Miss);
      CountSetCell(b, x, y, c, Empty);
    }
  }

  /**
   * When the opponent still had a ship part before the shot, the shot ends the
   * game exactly when no ship part is left afterwards; otherwise the turn passes.
   */
  lemma FireEndsGameIff(r: Room, p: Slot, x: int, y: int)
    requires InBounds(x, y) && FireAccepted(r, p) && HasShip(r.boards.Get(1 - p))
    ensures var r' := Fire(r, p, x, y);
      && (r'.status == GameOver <==> !HasShip(r'.boards.Get(1 - p)))
      && (r'.status == GameOver ==> r'.winner == Some(p) && r'.turn == p)
      && (r'.status == Playing ==> r'.turn == 1 - p)
  {
    var b, b' := r.boards.Get(1 - p), Fire(r, p, x, y).boards.Get(1 - p);
    HasShipIff(b);
    HasShipIff(b');
  }

  /**
   * Disconnecting during setup or play makes the other slot the winner, and a
   * second disconnect of the same slot changes nothing more.
   */
  lemma LeaveMidGameDecides(r: Room, p: Slot)
    requires r.status == Setup || r.status == Playing
    ensures var r' := Leave(r, p);
      r'.status == GameOver && r'.winner == Some(1 - p) && Leave(r', p) == r'
  {
  }

  /** A finished room whose other player stays can be rejoined and restarts setup. */
  lemma RejoinAfterGameOver(r: Room, p: Slot, id: PlayerId)
    requires r.status == GameOver && r.players.Get(1 - p).Some?
    ensures var r' := Leave(r, p);
      Join(r', id).Success? && Join(r', id).value.0.status == Setup
      && Join(r', id).value.1 == p && Join(r', id).value.0.winner == r.winner
  {
  }

  /**
   * The recorded winner is not final: when the loser's slot of a finished
   * room is rejoined, the winner's disconnect ends the game once more and
   * records the rejoined slot as the winner.
   */
  lemma RejoinThenLeaveOverwritesWinner(r: Room, p: Slot, id: PlayerId)
    requires r.status == GameOver && r.winner == Some(1 - p)
    requires r.players.Get(p) == None && r.players.Get(1 - p).Some?
    ensures var r' := Step(Step(r, JoinEvent(id)), LeaveEvent(1 - p));
      r'.status == GameOver && r'.winner == Some(p) && r'.winner != r.winner
  {
  }
}

=== FILE: placement.dfy ===
/**
 * The browser's fleet placement during setup: the player picks a ship from
 * the list of ships still to place, may rotate it, and clicks a cell of the
 * local board; a placement that fits on water marks the ship's cells and
 * takes the ship off the list.  The local board is what the client later
 * submits with `place_ships`.
 */
module Placement {
  import opened Wrappers
  import opened Board

  datatype Orientation = Horizontal | Vertical

  /** Pressing the rotate key swaps the orientation. */
  function Toggle(o: Orientation): (r: Orientation)
    ensures r != o
  {
    if o == Horizontal then Vertical else Horizontal
  }

  /** Rotating twice restores the orientation. */
  lemma ToggleTwice(o: Orientation)
    ensures Toggle(Toggle(o)) == o
  {
  }

  /** An entry of the fleet list: a ship's name and length. */
  datatype Vessel = Vessel(name: string, size: nat)

  /** The fleet every player places, in list order. */
  const Fleet: seq<Vessel> := [
    Vessel("Porta-aviões", 5),
    Vessel("Encouraçado", 4),
    Vessel("Cruzador", 3),
    Vessel("Submarino", 3),
    Vessel("Destróier", 2)
  ]

  /** The summed lengths of a list of ships. */
  function TotalSize(ships: seq<Vessel>): nat {
    if |ships| == 0 then 0 else ships[0].size + TotalSize(ships[1..])
  }

  lemma {:induction false} TotalSizeAppend(a: seq<Vessel>, b: seq<Vessel>)
    ensures TotalSize(a + b) == TotalSize(a) + TotalSize(b)
  {
    if |a| == 0 {
      assert a + b == b;
    } else {
      assert (a + b)[0] == a[0];
      assert (a + b)[1..] == a[1..] + b;
      TotalSizeAppend(a[1..], b);
    }
  }

  /** The fleet covers 5 + 4 + 3 + 3 + 2 cells. */
  lemma FleetSize()
    ensures TotalSize(Fleet) == 17
  {
    assert Fleet[1..][1..][1..][1..][1..] == [];
  }

  /** The ship picked from the list, with its list position and current orientation. */
  datatype Selection = Selection(ship: Vessel, listIndex: nat, orientation: Orientation)

  /** The placement state kept by `setupMyBoard`. */
  datatype Layout = Layout(
    board: Grid,
    toPlace: seq<Vessel>,
    selected: Option<Selection>,
    orientation: Orientation)

  /** Placement starts on an empty board with the whole fleet to place, nothing selected, horizontal. */
  function Start(): (s: Layout)
    ensures s.toPlace == Fleet && s.selected == None && s.orientation == Horizontal
    ensures forall y, x :: InBounds(x, y) ==> s.board[y][x] == Empty
  {
    Layout(Blank, Fleet, None, Horizontal)
  }

  /** Clicking entry `index` of the ship list selects that ship in the current orientation. */
  function SelectShip(s: Layout, index: nat): (s': Layout)
    requires index < |s.toPlace|
    ensures s'.selected == Some(Selection(s.toPlace[index], index, s.orientation))
    ensures s'.(selected := s.selected) == s
  {
    s.(selected := Some(Selection(s.toPlace[index], index, s.orientation)))
  }

  /**
   * A key press: `r` or `R` rotates the selected ship, keeping the layout's
   * and the selection's orientation equal; any other key, or no selection,
   * changes nothing.
   */
  function HandleKey(s: Layout, key: string): (s': Layout)
    ensures !((key == "r" || key == "R") && s.selected.Some?) ==> s' == s
    ensures (key == "r" || key == "R") && s.selected.Some? ==>
      && s'.orientation == Toggle(s.orientation)
      && s'.selected == Some(s.selected.value.(orientation := s'.orientation))
      && s'.board == s.board && s'.toPlace == s.toPlace
  {
    if (key == "r" || key == "R") && s.selected.Some? then
      var o := Toggle(s.orientation);
      s.(orientation := o, selected := Some(s.selected.value.(orientation := o)))
    else s
  }

  /** The i-th cell of a ship anchored at (x, y). */
  function Offset(x: int, y: int, o: Orientation, i: int): Pos {
    if o == Horizontal then Pos(x + i, y) else Pos(x, y + i)
  }

  /** The first `n` cells of a ship anchored at (x, y), pushed one at a time. */
  function Cells(x: int, y: int, o: Orientation, n: nat): (r: seq<Pos>)
    ensures |r| == n
    ensures forall i :: 0 <= i < n ==> r[i] == Offset(x, y, o, i)
  {
    if n == 0 then [] else Cells(x, y, o, n - 1) + [Offset(x, y, o, n - 1)]
  }

  /**
   * The cells the selected ship would cover with its first cell at (x, y):
   * none without a selection, otherwise `size` consecutive cells going right
   * or down.
   */
  function ShipCells(s: Layout, x: int, y: int): (r: seq<Pos>)
    ensures s.selected == None ==> r == []
    ensures s.selected.Some? ==> |r| == s.selected.value.ship.size
    ensures s.selected.Some? ==> forall i :: 0 <= i < |r| ==>
      r[i] == (if s.selected.value.orientation == Horizontal then Pos(x + i, y) else Pos(x, y + i))
  {
    match s.selected
    case None => []
    case Some(sel) => Cells(x, y, sel.orientation, sel.ship.size)
  }

  predicate Distinct(cells: seq<Pos>) {
    forall i, j :: 0 <= i < j < |cells| ==> cells[i] != cells[j]
  }

  /** The cells of one ship never repeat. */
  lemma ShipCellsDistinct(s: Layout, x: int, y: int)
    ensures Distinct(ShipCells(s, x, y))
  {
  }

  /** A placement is legal when every cell is on the board and holds water. */
  predicate CanPlace(board: Grid, cells: seq<Pos>) {
    forall i :: 0 <= i < |cells| ==>
      InBounds(cells[i].x, cells[i].y) && board[cells[i].y][cells[i].x] == Empty
  }

  /**
   * Placed ships never overlap: once a run is marked, no run sharing a cell
   * with it is legal any more.
   */
  lemma MarkedCellsBlockPlacement(b: Grid, cells: seq<Pos>, other: seq<Pos>, i: nat, j: nat)
    requires forall k :: 0 <= k < |cells| ==> InBounds(cells[k].x, cells[k].y)
    requires i < |cells| && j < |other| && cells[i] == other[j]
    ensures !CanPlace(MarkShips(b, cells), other)
  {
  }

  /** A legal run of distinct cells needs at least that much water on the board. */
  lemma CanPlaceNeedsWater(b: Grid, cells: seq<Pos>)
    requires CanPlace(b, cells) && Distinct(cells)
    ensures |cells| <= Count(b, Empty)
  {
    var marked := MarkShips(b, cells);
    assert Count(marked, Empty) + |cells| == Count(b, Empty);
  }

  /**
   * For a selected ship, legality in closed form: the whole run from (x, y)
   * lies on the board and every cell of it is water.
   */
  lemma CanPlaceIff(s: Layout, x: int, y: int)
    requires s.selected.Some? && s.selected.value.ship.size > 0
    ensures var n, o := s.selected.value.ship.size, s.selected.value.orientation;
      CanPlace(s.board, ShipCells(s, x, y)) <==>
        && (o == Horizontal ==> 0 <= x && x + n <= Size && 0 <= y < Size)
        && (o == Vertical ==> 0 <= y && y + n <= Size && 0 <= x < Size)
        && forall i :: 0 <= i < n ==> s.board[Offset(x, y, o, i).y][Offset(x, y, o, i).x] == Empty
  {
    var n, o := s.selected.value.ship.size, s.selected.value.orientation;
    var cells := ShipCells(s, x, y);
    if CanPlace(s.board, cells) {
      assert InBounds(cells[0].x, cells[0].y);
      assert InBounds(cells[n - 1].x, cells[n - 1].y);
    }
  }

  /** `b` with every listed cell set to a ship part, one after the other. */
  function MarkShips(b: Grid, cells: seq<Pos>): (r: Grid)
    requires forall i :: 0 <= i < |cells| ==> InBounds(cells[i].x, cells[i].y)
    ensures forall i :: 0 <= i < |cells| ==> InBounds(cells[i].x, cells[i].y) && r[cells[i].y][cells[i].x] == Ship
    ensures forall y, x :: InBounds(x, y) && Pos(x, y) !in cells ==> r[y][x] == b[y][x]
    ensures CanPlace(b, cells) && Distinct(cells) ==>
      && Count(r, Ship) == Count(b, Ship) + |cells|
      && Count(r, Empty) + |cells| == Count(b, Empty)
      && Count(r, Hit) == Count(b, Hit) && Count(r, Miss) == Count(b, Miss)
    decreases |cells|
  {
    if |cells| == 0 then b
    else
      var c := cells[0];
      var b1 := SetCell(b, c.x, c.y, Ship);
      CountSetCell(b, c.x, c.y, Ship, Ship);
      CountSetCell(b, c.x, c.y, Ship, Empty);
      CountSetCell(b, c.x, c.y, Ship, Hit);
      CountSetCell(b, c.x, c.y, Ship, Miss);
      assert CanPlace(b, cells) && Distinct(cells) ==> CanPlace(b1, cells[1..]) && Distinct(cells[1..]) by {
        if CanPlace(b, cells) && Distinct(cells) {
          forall i | 0 <= i < |cells[1..]|
            ensures InBounds(cells[1..][i].x, cells[1..][i].y) && b1[cells[1..][i].y][cells[1..][i].x] == Empty
          {
            assert cells[1..][i] == cells[i + 1] != c;
          }
        }
      }
      MarkShips(b1, cells[1..])
  }

  /** `ships.splice(i, 1)`: drops entry `i` when there is one. */
  function Splice(ships: seq<Vessel>, i: nat): (r: seq<Vessel>)
    ensures i < |ships| ==> |r| + 1 == |ships| && multiset(r) + multiset{ships[i]} == multiset(ships)
    ensures i < |ships| ==> TotalSize(r) + ships[i].size == TotalSize(ships)
    ensures i < |ships| ==> r[..i] == ships[..i] && r[i..] == ships[i + 1..]
    ensures i >= |ships| ==> r == ships
  {
    if i < |ships| then
      assert ships == ships[..i] + ([ships[i]] + ships[i + 1..]);
      TotalSizeAppend(ships[..i], [ships[i]] + ships[i + 1..]);
      assert ([ships[i]] + ships[i + 1..])[1..] == ships[i + 1..];
      assert TotalSize([ships[i]] + ships[i + 1..]) == ships[i].size + TotalSize(ships[i + 1..]);
      TotalSizeAppend(ships[..i], ships[i + 1..]);
      ships[..i] + ships[i + 1..]
    else ships
  }

  /**
   * A click on cell (x, y) of the local board.  With a ship selected and a
   * legal placement, the ship's cells become ship parts, the ship leaves the
   * list, the selection is cleared and the orientation goes back to
   * horizontal; the flag says whether the list is now empty, which ends
   * placement.  Anything else leaves the layout as it was.
   */
  function PlaceOnClick(s: Layout, x: int, y: int): (res: (Layout, bool))
    ensures var s', done := res.0, res.1;
      && (s.selected == None || !CanPlace(s.board, ShipCells(s, x, y)) ==> s' == s && !done)
      && (s.selected.Some? && CanPlace(s.board, ShipCells(s, x, y)) ==>
            && s'.board == MarkShips(s.board, ShipCells(s, x, y))
            && s'.toPlace == Splice(s.toPlace, s.selected.value.listIndex)
            && s'.selected == None && s'.orientation == Horizontal
            && (done <==> |s'.toPlace| == 0))
  {
    var cells := ShipCells(s, x, y);
    if s.selected == None || !CanPlace(s.board, cells) then (s, false)
    else
      var ships := Splice(s.toPlace, s.selected.value.listIndex);
      (Layout(MarkShips(s.board, cells), ships, None, Horizontal), |ships| == 0)
  }

  /**
   * What holds of every layout the placement screen reaches: the board holds
   * only water and ship parts, the ship parts number exactly the lengths of
   * the ships already placed (so no two placed ships share a cell), the
   * list is part of the fleet, and a selection names its own list entry in
   * the current orientation.
   */
  ghost predicate Wf(s: Layout) {
    && Count(s.board, Hit) == 0 && Count(s.board, Miss) == 0
    && Count(s.board, Ship) + TotalSize(s.toPlace) == TotalSize(Fleet)
    && multiset(s.toPlace) <= multiset(Fleet)
    && (s.selected.Some? ==>
          && s.selected.value.listIndex < |s.toPlace|
          && s.toPlace[s.selected.value.listIndex] == s.selected.value.ship
          && s.selected.value.orientation == s.orientation)
  }

  /** The starting layout is well formed: an empty board and the whole fleet still to place. */
  lemma StartWf()
    ensures Wf(Start())
  {
    StartBoard();
    FleetSize();
  }

  lemma StartBoard()
    ensures Count(Start().board, Ship) == 0 && Count(Start().board, Hit) == 0 && Count(Start().board, Miss) == 0
  {
    BlankIsEmpty();
  }

  /** Selecting a list entry keeps the layout well formed. */
  lemma SelectKeepsWf(s: Layout, index: nat)
    requires Wf(s) && index < |s.toPlace|
    ensures Wf(SelectShip(s, index))
  {
  }

  /** Rotating keeps the layout well formed. */
  lemma HandleKeyKeepsWf(s: Layout, key: string)
    requires Wf(s)
    ensures Wf(HandleKey(s, key))
  {
  }

  /** Clicking the board keeps the layout well formed. */
  lemma PlaceKeepsWf(s: Layout, x: int, y: int)
    requires Wf(s)
    ensures Wf(PlaceOnClick(s, x, y).0)
  {
  }

  /**
   * A successful click marks exactly the ship's cells, removes exactly one
   * list entry, namely the selected ship, and adds its length to the board.
   */
  lemma PlaceOnClickEffect(s: Layout, x: int, y: int)
    requires Wf(s) && s.selected.Some? && CanPlace(s.board, ShipCells(s, x, y))
    ensures var s', cells := PlaceOnClick(s, x, y).0, ShipCells(s, x, y);
      && (forall j, i :: InBounds(i, j) ==> (s'.board[j][i] == Ship <==> s.board[j][i] == Ship || Pos(i, j) in cells))
      && multiset(s'.toPlace) + multiset{s.selected.value.ship} == multiset(s.toPlace)
      && Count(s'.board, Ship) == Count(s.board, Ship) + s.selected.value.ship.size
  {
  }

  /** When the list is empty the board holds the whole fleet: 17 ship parts. */
  lemma FleetComplete(s: Layout)
    requires Wf(s) && |s.toPlace| == 0
    ensures Count(s.board, Ship) == 17
  {
    FleetSize();
  }
}

=== FILE: redaction.dfy ===
/**
 * The per-viewer projection `broadcastToRoom` sends: a copy of the room in
 * which the viewer's own board is untouched and every unhit ship part of the
 * opponent's board is shown as water.  It is applied in every status,
 * including after the game is over.
 */
module Redaction {
  import opened Board
  import opened Game

  /** What the viewer is shown of one opponent cell. */
  function Hide(c: Cell): (r: Cell)
    ensures r != Ship
    ensures c == Ship ==> r == Empty
    ensures c != Ship ==> r == c
  {
    if c == Ship then Empty else c
  }

  /**
   * The opponent's board as the viewer receives it: no ship part is left,
   * ship parts read as water, and every other cell is kept.
   */
  function Redact(b: Grid): (r: Grid)
    ensures !HasShip(r)
    ensures forall y, x :: InBounds(x, y) && b[y][x] != Ship ==> r[y][x] == b[y][x]
    ensures forall y, x :: InBounds(x, y) && b[y][x] == Ship ==> r[y][x] == Empty
  {
    var r := seq(Size, y requires 0 <= y < Size => seq(Size, x requires 0 <= x < Size => Hide(b[y][x])));
    HasShipIff(r);
    r
  }

  /** The state sent to `viewer`. */
  function Project(r: Room, viewer: Slot): (v: Room)
    ensures v.boards.Get(viewer) == r.boards.Get(viewer)
    ensures !HasShip(v.boards.Get(1 - viewer))
    ensures forall y, x :: InBounds(x, y) && r.boards.Get(1 - viewer)[y][x] != Ship ==>
      v.boards.Get(1 - viewer)[y][x] == r.boards.Get(1 - viewer)[y][x]
    ensures forall y, x :: InBounds(x, y) && r.boards.Get(1 - viewer)[y][x] == Ship ==>
      v.boards.Get(1 - viewer)[y][x] == Empty
    ensures v.(boards := r.boards) == r
  {
    var hidden := Redact(r.boards.Get(1 - viewer));
    r.(boards := r.boards.Set(1 - viewer, hidden))
  }

  /** Redacting a redacted board changes nothing more. */
  lemma RedactIdempotent(b: Grid)
    ensures Redact(Redact(b)) == Redact(b)
  {
    var once, twice := Redact(b), Redact(Redact(b));
    forall y | 0 <= y < Size ensures twice[y] == once[y] {
      assert forall x :: 0 <= x < Size ==> twice[y][x] == once[y][x];
    }
  }

  /**
   * The projection reveals nothing about where the opponent's unhit ships
   * are: two rooms that differ only in which opponent cells hold a ship
   * rather than water give the viewer the same state.
   */
  lemma ProjectHidesShipLayout(r1: Room, r2: Room, viewer: Slot)
    requires r1.(boards := r2.boards) == r2
    requires r1.boards.Get(viewer) == r2.boards.Get(viewer)
    requires forall y, x :: InBounds(x, y) ==>
      Hide(r1.boards.Get(1 - viewer)[y][x]) == Hide(r2.boards.Get(1 - viewer)[y][x])
    ensures Project(r1, viewer) == Project(r2, viewer)
  {
    var h1, h2 := Redact(r1.boards.Get(1 - viewer)), Redact(r2.boards.Get(1 - viewer));
    var b1, b2 := r1.boards.Get(1 - viewer), r2.boards.Get(1 - viewer);
    forall y | 0 <= y < Size ensures h1[y] == h2[y] {
      forall x | 0 <= x < Size ensures h1[y][x] == h2[y][x] {
        assert InBounds(x, y);
        assert h1[y][x] == Hide(b1[y][x]) && h2[y][x] == Hide(b2[y][x]);
      }
    }
    assert h1 == h2;
  }

  /** The projection keeps every hit and miss of the opponent's board, and drops all its ship parts. */
  lemma ProjectCounts(r: Room, viewer: Slot)
    ensures var b, v := r.boards.Get(1 - viewer), Project(r, viewer).boards.Get(1 - viewer);
      && Count(v, Ship) == 0
      && Count(v, Hit) == Count(b, Hit) && Count(v, Miss) == Count(b, Miss)
      && Count(v, Empty) == Count(b, Empty) + Count(b, Ship)
  {
    var b, v := r.boards.Get(1 - viewer), Project(r, viewer).boards.Get(1 - viewer);
    HasShipIff(v);
    HiddenFlat(b, v);
  }

  /** Row-by-row, the flattened projected board is the flattened board with each cell hidden. */
  lemma {:induction false} HiddenFlat(b: seq<seq<Cell>>, v: seq<seq<Cell>>)
    requires |b| == |v|
    requires forall y :: 0 <= y < |b| ==> |b[y]| == |v[y]|
    requires forall y, x :: 0 <= y < |b| && 0 <= x < |b[y]| ==> v[y][x] == Hide(b[y][x])
    ensures multiset(Flat(v))[Hit] == multiset(Flat(b))[Hit]
    ensures multiset(Flat(v))[Miss] == multiset(Flat(b))[Miss]
    ensures multiset(Flat(v))[Empty] == multiset(Flat(b))[Empty] + multiset(Flat(b))[Ship]
  {
    if |b| > 0 {
      HiddenFlat(b[1..], v[1..]);
      HiddenRow(b[0], v[0]);
    }
  }

  lemma {:induction false} HiddenRow(b: seq<Cell>, v: seq<Cell>)
    requires |b| == |v|
    requires forall x :: 0 <= x < |b| ==> v[x] == Hide(b[x])
    ensures multiset(v)[Hit] == multiset(b)[Hit]
    ensures multiset(v)[Miss] == multiset(b)[Miss]
    ensures multiset(v)[Empty] == multiset(b)[Empty] + multiset(b)[Ship]
  {
    if |b| > 0 {
      HiddenRow(b[1..], v[1..]);
      assert b == [b[0]] + b[1..];
      assert v == [v[0]] + v[1..];
    }
  }
}

=== FILE: registry.dfy ===
/**
 * The server's table of rooms (`games`) and the handlers that act on it:
 * room creation, the validate-room lookup, a WebSocket connection joining a
 * room, an inbound message, a connection closing, and the fan-out of
 * per-viewer states after each change.
 */
module Registry {
  import opened Wrappers
  import opened Board
  import opened Game
  import opened Redaction

  type RoomId = string

  type Rooms = map<RoomId, Room>

  /** `g'` holds exactly the rooms of `g` except room `id`, which it may also hold. */
  ghost predicate OthersUnchanged(g: Rooms, g': Rooms, id: RoomId) {
    forall k :: k != id ==> (k in g' <==> k in g) && (k in g ==> g'[k] == g[k])
  }

  /** Room creation stores a fresh room under `id`, replacing any room already stored there. */
  function CreateRoom(g: Rooms, id: RoomId): (g': Rooms)
    ensures id in g' && g'[id] == NewRoom()
    ensures g'.Keys == g.Keys + {id}
    ensures OthersUnchanged(g, g', id)
  {
    g[id := NewRoom()]
  }

  datatype Availability = Available | NotFound | Full

  /** The validate-room lookup: unknown rooms are not found, rooms with both seats taken are full. */
  function ValidateRoom(g: Rooms, id: RoomId): (a: Availability)
    ensures a == NotFound <==> id !in g
    ensures a == Full <==> id in g && BothOccupied(g[id].players)
    ensures a == Available <==> id in g && FirstFree(g[id].players).Some?
  {
    if id !in g then NotFound
    else if BothOccupied(g[id].players) then Full
    else Available
  }

  /**
   * A connection asking for room `id`: refused when the id is empty or
   * unknown, refused when the room is full, and otherwise seated in the
   * room's lowest empty slot, which it is told as its player index.
   */
  function Connect(g: Rooms, id: RoomId, player: PlayerId): (res: Result<(Rooms, Slot), JoinError>)
    ensures (id == "" || id !in g) ==> res == Failure(InvalidRoom)
    ensures id != "" && id in g ==> (res.Failure? <==> BothOccupied(g[id].players))
    ensures id != "" && id in g && res.Failure? ==> res.error == RoomFull
    ensures res.Success? ==>
      && id in g && id in res.value.0
      && JoinedAs(g[id], res.value.0[id], res.value.1, player)
      && OthersUnchanged(g, res.value.0, id)
  {
    if id == "" || id !in g then Failure(InvalidRoom)
    else match Join(g[id], player)
      case Failure(e) => Failure(e)
      case Success(joined) => Success((g[id := joined.0], joined.1))
  }

  /** The inbound messages a seated player can send. */
  datatype Message = PlaceShipsMsg(board: Grid) | FireMsg(x: int, y: int)

  predicate ValidMessage(m: Message) {
    m.FireMsg? ==> InBounds(m.x, m.y)
  }

  /** A message from slot `p` of room `id`; one for a room that no longer exists is dropped. */
  function Receive(g: Rooms, id: RoomId, p: Slot, m: Message): (g': Rooms)
    requires ValidMessage(m)
    ensures id !in g ==> g' == g
    ensures g'.Keys == g.Keys
    ensures OthersUnchanged(g, g', id)
    ensures id in g && m.PlaceShipsMsg? ==> g'[id] == PlaceShips(g[id], p, m.board)
    ensures id in g && m.FireMsg? ==> g'[id] == Fire(g[id], p, m.x, m.y)
  {
    if id !in g then g
    else match m
      case PlaceShipsMsg(board) => g[id := PlaceShips(g[id], p, board)]
      case FireMsg(x, y) => g[id := Fire(g[id], p, x, y)]
  }

  /**
   * The connection in slot `p` of room `id` closing: the room takes the
   * leave transition and is deleted once neither slot is taken.
   */
  function Disconnect(g: Rooms, id: RoomId, p: Slot): (g': Rooms)
    ensures id !in g ==> g' == g
    ensures id in g ==> (id in g' <==> g[id].players.Get(1 - p).Some?)
    ensures id in g' ==> id in g && g'[id] == Leave(g[id], p)
    ensures OthersUnchanged(g, g', id)
  {
    if id !in g then g
    else
      var r := Leave(g[id], p);
      if r.players.first == None && r.players.second == None then g - {id}
      else g[id := r]
  }

  /** Closing the same slot twice has the effect of closing it once. */
  lemma DisconnectIdempotent(g: Rooms, id: RoomId, p: Slot)
    ensures Disconnect(Disconnect(g, id, p), id, p) == Disconnect(g, id, p)
  {
  }

  /**
   * The validate-room answer predicts the outcome of connecting: available
   * rooms accept the connection, full ones refuse it as full, unknown ones
   * refuse it as invalid.
   */
  lemma ValidateAgreesWithConnect(g: Rooms, id: RoomId, player: PlayerId)
    requires id != ""
    ensures ValidateRoom(g, id) == Available <==> Connect(g, id, player).Success?
    ensures ValidateRoom(g, id) == Full <==> Connect(g, id, player) == Failure(RoomFull)
    ensures ValidateRoom(g, id) == NotFound <==> Connect(g, id, player) == Failure(InvalidRoom)
  {
  }

  /**
   * The states `broadcastToRoom` sends: one per slot whose connection is
   * open, each the projection for that slot; nothing for a deleted room.
   */
  function Broadcast(g: Rooms, id: RoomId, open: Pair<bool>): (out: Pair<Option<Room>>)
    ensures forall s: Slot :: out.Get(s).Some? <==> id in g && open.Get(s)
    ensures forall s: Slot :: out.Get(s).Some? ==>
      && out.Get(s).value.boards.Get(s) == g[id].boards.Get(s)
      && !HasShip(out.Get(s).value.boards.Get(1 - s))
      && (forall y, x :: InBounds(x, y) ==>
            out.Get(s).value.boards.Get(1 - s)[y][x] == Hide(g[id].boards.Get(1 - s)[y][x]))
      && out.Get(s).value.(boards := g[id].boards) == g[id]
  {
    if id !in g then Pair(None, None)
    else
      var r := g[id];
      Pair(if open.first then Some(Project(r, 0)) else None,
           if open.second then Some(Project(r, 1)) else None)
  }

  /** Every stored room satisfies the room invariant. */
  ghost predicate AllInv(g: Rooms) {
    forall k :: k in g ==> Inv(g[k])
  }

  /** Every handler keeps every stored room within the room invariant. */
  lemma HandlersKeepInv(g: Rooms, id: RoomId, player: PlayerId, p: Slot, m: Message)
    requires AllInv(g) && ValidMessage(m)
    ensures AllInv(CreateRoom(g, id))
    ensures Connect(g, id, player).Success? ==> AllInv(Connect(g, id, player).value.0)
    ensures AllInv(Receive(g, id, p, m))
    ensures AllInv(Disconnect(g, id, p))
  {
  }

  /**
   * A new room joined by two connections seats them in slots 0 and 1 in
   * join order and is then in setup.
   */
  lemma TwoJoinsStartSetup(g: Rooms, id: RoomId, a: PlayerId, b: PlayerId)
    requires id != ""
    ensures var g1 := CreateRoom(g, id);
      && Connect(g1, id, a).Success? && Connect(g1, id, a).value.1 == 0
      && var g2 := Connect(g1, id, a).value.0;
      && Connect(g2, id, b).Success? && Connect(g2, id, b).value.1 == 1
      && Connect(g2, id, b).value.0[id].status == Setup
      && ValidateRoom(Connect(g2, id, b).value.0, id) == Full
  {
  }
}

=== FILE: wrappers.dfy ===
/** Small failure-carrying datatypes shared by the other modules. */
module Wrappers {

  /** A value that may be absent: the JavaScript code's `null` against a present value. */
  datatype Option<+T> = None | Some(value: T)

  /** Either the value an operation produced or the reason it refused. */
  datatype Result<+T, +E> = Success(value: T) | Failure(error: E)
}
